=== FILE: README.md ===
# EmbeddedBlockChunker in Dafny

A model of `EmbeddedBlockChunker`, the streaming text chunker of the agent runtime.
A producer appends text to the chunker's buffer. `drain({force, emit})` cuts chunks
off the front of the buffer and hands each one to `emit`. What was not emitted stays
readable as `bufferedText`.

The chunker cuts at ranked boundaries:

- a paragraph end, which is a blank line or the point just after a closing
  triple-backtick fence marker;
- a sentence end (`.`, `!` or `?` followed by whitespace or the end of the buffer);
- a word break (a space).

It never cuts inside a fenced code block, apart from the last chunk of a forced
drain, which may end inside a fence that never closed. A non-forced drain cuts only
at or after `minChars`. Below `maxChars` it takes only paragraph and sentence ends,
and otherwise waits for more text. A forced drain flushes the whole buffer.

The implementation file `src/agents/pi-embedded-block-chunker.ts` is not part of this
model. The rules are those the chunker's test scenarios pin down, and each row below
cites the assertions it answers to.

Layout:

- `wrappers.dfy`: `Option` and `Result`.
- `text.dfy`: character classes, the whitespace run skipped after a cut,
  joining lines with `"\n"`, and regrouping concatenations.
- `fences.dfy`: the left-to-right scan for fence markers, and the fence state of
  every cut position.
- `boundaries.dfy`: boundary kinds, their ranking, and the search for the earliest
  cut of the best kind in a window.
- `chunker.dfy`: the configuration, cut selection in both modes, `Drain`, the
  chunker value with `Append`, `BufferedText` and `DrainAll`, call sequences, and the
  drain loop as a method.
- `properties.dfy`: what every drain guarantees.
- `scenarios.dfy`: the four scenarios, first for families of buffers and then for
  the scenario texts.

A cut at `p` means the chunk is `s[..p]`. After a cut, the run of whitespace that
follows it is dropped. A `Piece` records each chunk together with the whitespace
dropped after it, so that no text is lost without a trace.

## Model

All source cells refer to `src/agents/pi-embedded-block-chunker.test.ts`.

| member | source | states |
|---|---|---|
| Chunker.MakeConfig | src/agents/pi-embedded-block-chunker.test.ts:7-11 | A configuration is built exactly when `0 < minChars <= maxChars`, and it keeps the bounds given. Otherwise it is an error, naming a non-positive `minChars` first. |
| Text.SkipSpace | src/agents/pi-embedded-block-chunker.test.ts:30-32 | The text dropped after a cut is all whitespace. It ends at the first non-whitespace character or at the end of the buffer, so the next chunk starts at visible text. |
| Fences.MarkersFromSound | src/agents/pi-embedded-block-chunker.test.ts:13-21 | Every marker the scan reports is a real "```" at or after the scan start, and the markers do not overlap. |
| Fences.MarkersFromComplete | src/agents/pi-embedded-block-chunker.test.ts:13-21 | The scan misses no "```": every occurrence lies within a reported marker. |
| Fences.OutsideFenceIffNoSpan | src/agents/pi-embedded-block-chunker.test.ts:28-31 | Both directions: a cut is admissible exactly when it is in no fence span. A span runs from just after an opening marker's start to before its closing marker's end, or to the end of the text if the fence is unclosed. |
| Fences.CloseIsOutside | src/agents/pi-embedded-block-chunker.test.ts:30 | The position just after a closing marker is always an admissible cut. |
| Fences.NoMarkersNoFence | src/agents/pi-embedded-block-chunker.test.ts:72-73 | Text without a marker has no fence state: every position is admissible and no fence closes anywhere. |
| Fences.PrefixMarkers | src/agents/pi-embedded-block-chunker.test.ts:23-31 | A prefix of the buffer has exactly the markers of the whole buffer that end within it. Text appended later never changes them. |
| Fences.ChunkFenceState | src/agents/pi-embedded-block-chunker.test.ts:28-31 | A chunk cut at an admissible position closes every fence it opens. Each position inside the chunk has the same fence state as in the buffer it was cut from. |
| Boundaries.FirstBreak | src/agents/pi-embedded-block-chunker.test.ts:88-94 | The result is the earliest boundary of the given kind in the window. It is absent exactly when the window has none. |
| Boundaries.BestBreak | src/agents/pi-embedded-block-chunker.test.ts:54-60 | The result is the earliest boundary of the highest-ranked kind present in the window. No higher-ranked kind occurs there. It is absent exactly when no kind between the two ranks occurs. |
| Chunker.HardCut | src/agents/pi-embedded-block-chunker.test.ts:97-99 | The cut of last resort is the first admissible position at or after `maxChars`: no earlier position from `maxChars` on is admissible. It goes past `maxChars` only when `maxChars` is inside a fence, and it is absent exactly when nothing from `maxChars` on is admissible. |
| Chunker.PatientCut | src/agents/pi-embedded-block-chunker.test.ts:97-123 | A non-forced cut is admissible and at or after `minChars`. It is a paragraph or sentence end while the buffer is below `maxChars`. It is absent exactly when no cut is available. |
| Chunker.PatientCutPrefersRank | src/agents/pi-embedded-block-chunker.test.ts:88-123 | Rank preference of a non-forced cut. No higher-ranked boundary lies in the window from `minChars` to the end of the buffer or `maxChars`. A ranked cut is the earliest of its kind in that window. A hard cut is taken only once the buffer has reached `maxChars` and the window holds no paragraph, sentence or word break, at the first admissible position from there. |
| Chunker.ForcedCut | src/agents/pi-embedded-block-chunker.test.ts:52-60 | A forced cut exists for every non-empty buffer. It is an admissible boundary or the whole remainder, and it goes past `maxChars` only when `maxChars` is inside a fence. |
| Chunker.ForcedCutPrefersRank | src/agents/pi-embedded-block-chunker.test.ts:52-60 | When a forced drain must split because the buffer exceeds `maxChars`, a cut is always found. No higher-ranked boundary lies in `[1, maxChars]`. A ranked cut is the earliest of its kind there. A hard cut is the first admissible position from `maxChars` on. The whole remainder is taken only when `[1, maxChars]` holds no ranked boundary and nothing from `maxChars` on is admissible. |
| Chunker.SelectCut | src/agents/pi-embedded-block-chunker.test.ts:26-32 | The next cut of either mode lies inside the buffer and respects the fences and the size window. The drain stops exactly when the buffer is empty (forced) or no cut is available (non-forced). |
| Chunker.Drain | src/agents/pi-embedded-block-chunker.test.ts:23-32 | The emitted chunks, each with the whitespace dropped after it, followed by the remainder, spell the buffer exactly. A drain emits nothing exactly when no first cut exists, and then the buffer is untouched. |
| Chunker.AppendExtends | src/agents/pi-embedded-block-chunker.test.ts:23 | Appending keeps the configuration and the buffered text, and places the new text after it: the buffer grows by exactly the text's length. |
| Chunker.DrainAllConserves | src/agents/pi-embedded-block-chunker.test.ts:26 | A drain call keeps the configuration. The emitted chunks, with the dropped whitespace, followed by the new `bufferedText`, are the old `bufferedText`. A call that emits nothing leaves the chunker unchanged. |
| Chunker.RunConservesText | src/agents/pi-embedded-block-chunker.test.ts:23-32 | Over any sequence of appends and drains, everything emitted, with the dropped whitespace, followed by `bufferedText`, equals the starting buffer plus all text appended. |
| Chunker.DrainLoop | src/agents/pi-embedded-block-chunker.test.ts:26 | The loop that finds a cut, emits the chunk and then shrinks the buffer emits exactly the chunks of `Drain`, in order, and leaves the same buffer. |
| DrainProperties.PiecesAreEmittable | src/agents/pi-embedded-block-chunker.test.ts:28-32 | Every emitted chunk is non-empty, and only whitespace is dropped between it and the next text. |
| DrainProperties.ForcedDrainFlushes | src/agents/pi-embedded-block-chunker.test.ts:52-56 | A forced drain of a non-empty buffer emits at least one chunk and always leaves the buffer empty. |
| DrainProperties.PatientChunksReachFloor | src/agents/pi-embedded-block-chunker.test.ts:88-89 | Every chunk of a non-forced drain holds at least `minChars` characters. |
| DrainProperties.ChunksRespectCeiling | src/agents/pi-embedded-block-chunker.test.ts:97-99 | Every chunk of either mode fits in `maxChars`, unless position `maxChars` is inside one of that chunk's fences. |
| DrainProperties.ChunksKeepFencesWhole | src/agents/pi-embedded-block-chunker.test.ts:28-30 | No chunk splits a fenced block: each closes every fence it opens. The one exception is the final remainder of a forced drain. |
| DrainProperties.PatientDrainWaits | src/agents/pi-embedded-block-chunker.test.ts:120-124 | A non-forced drain emits nothing exactly when no cut is available, and then `bufferedText` is the buffer unchanged. |
| DrainProperties.PatientDrainProgresses | src/agents/pi-embedded-block-chunker.test.ts:88-90 | A paragraph or sentence end between `minChars` and `maxChars` makes a non-forced drain emit at least one chunk. |
| DrainProperties.PatientSplitPrefersSentence | src/agents/pi-embedded-block-chunker.test.ts:88-94 | Once the buffer has reached `maxChars`, a sentence end in `[minChars, maxChars]` with no paragraph end there makes a non-forced drain emit a first chunk that ends a sentence, no later than that sentence end. |
| DrainProperties.PatientHardCutAtCeiling | src/agents/pi-embedded-block-chunker.test.ts:97-99 | Once the buffer has reached `maxChars`, with no paragraph, sentence or word break in `[minChars, maxChars]` and `maxChars` admissible, a non-forced drain cuts its first chunk at exactly `maxChars`. |
| DrainProperties.FenceCloseSelected | src/agents/pi-embedded-block-chunker.test.ts:26-30 | With no earlier paragraph end in the window, the first non-forced cut is just after a closing marker inside the window. |
| DrainProperties.FenceCloseChunk | src/agents/pi-embedded-block-chunker.test.ts:30 | The buffer up to a closing position ends with "```" and closes every fence it opens. |
| DrainProperties.FenceCloseEndsChunk | src/agents/pi-embedded-block-chunker.test.ts:26-32 | The first chunk is the buffer up to and including the closing marker. The drain continues after the whitespace that follows. |
| DrainProperties.ProseHasNoParagraph | src/agents/pi-embedded-block-chunker.test.ts:72-73 | Text with no blank line and no fence marker has no paragraph boundary. |
| DrainProperties.ProseChunksEndSentences | src/agents/pi-embedded-block-chunker.test.ts:91-94 | Below `maxChars`, every chunk a non-forced drain cuts from a paragraph of prose ends with `.`, `!` or `?`. |
| DrainProperties.ForcedDrainKeepsShortBufferWhole | src/agents/pi-embedded-block-chunker.test.ts:52-60 | A forced drain of a non-empty buffer that fits in `maxChars` emits it as one chunk and leaves nothing. |
| DrainProperties.ForcedSplitPrefersSentence | src/agents/pi-embedded-block-chunker.test.ts:54-60 | A forced drain that must split, with a sentence end but no paragraph end up to `maxChars`, ends its first chunk at the earliest sentence end, not at a word break. |
| DrainProperties.DrainAfterCut | src/agents/pi-embedded-block-chunker.test.ts:30-32 | After a cut, a drain drops exactly the whitespace run that follows and continues on the text after it. |
| DrainProperties.DrainSettles | src/agents/pi-embedded-block-chunker.test.ts:28-32 | Draining again in the same mode straight away emits nothing and leaves the buffer unchanged. |
| Scenarios.FencedLayoutMarkers | src/agents/pi-embedded-block-chunker.test.ts:13-21 | Text with one code block and no other backticks has exactly two markers, one on each side of the code. |
| Scenarios.NoParagraphBeforeClose | src/agents/pi-embedded-block-chunker.test.ts:13-21 | In such a text, with no blank line before the block, no paragraph boundary comes before the closing marker's end. |
| Scenarios.FenceBlockEmitted | src/agents/pi-embedded-block-chunker.test.ts:23-32 | If the block ends inside the size window, a non-forced drain emits the text through the closing marker as its first chunk. It then drops the separating whitespace and continues on the following text. |
| Scenarios.ShortProseWaits | src/agents/pi-embedded-block-chunker.test.ts:97-124 | Below `maxChars`, prose with no sentence end from `minChars` on is held back whole, word breaks notwithstanding. |
| Scenarios.FenceCloseExample | src/agents/pi-embedded-block-chunker.test.ts:6-33 | For the scenario text and bounds 1 and 40: exactly one chunk, which contains `console.log`, ends with "```" and does not contain `After`. The remaining buffer starts with `After`. |
| Scenarios.ForcedShortTextExample | src/agents/pi-embedded-block-chunker.test.ts:35-61 | With bounds 100 and 200, a forced drain of 150 characters emits at least one chunk. In fact it emits the whole text as one chunk, so the several-chunks clause holds, and it leaves the buffer empty. |
| Scenarios.LongParagraphExample | src/agents/pi-embedded-block-chunker.test.ts:63-95 | With bounds 300 and 1200, a 934-character paragraph of prose with a sentence end at 360 yields at least one chunk. Every chunk ends a sentence and holds at least 300 characters. |
| Scenarios.NoWordFallbackExample | src/agents/pi-embedded-block-chunker.test.ts:97-125 | With bounds 50 and 200, a 144-character paragraph of prose whose only sentence end is at 4 emits nothing, and `bufferedText` is the text itself. |

## Left out

- The implementation file `src/agents/pi-embedded-block-chunker.ts` is not part of this model. The boundary rules are predicates inferred from the scenarios' assertions, not a transcription of its scanning code.
- `breakPreference` values other than `"paragraph"`: they are never exercised, so the configuration has no such field.
- `emit` is a callback. The model returns the emitted chunks in order (`Chunks`, `DrainLoop`) instead of calling it. What happens when `emit` throws is not modelled.
- The test harness and its diagnostic logging have no behaviour to model.
- String length: the model counts characters. JavaScript counts UTF-16 code units, which differ for characters outside the Basic Multilingual Plane.
- Forced-mode policy, a choice the scenarios leave open:
  - a buffer that fits in `maxChars` is emitted whole;
  - a longer one is cut at the best boundary up to `maxChars`, ignoring `minChars`;
  - failing that, it is cut at the first admissible position from `maxChars` on;
  - failing that, the rest is emitted whole.
  The forced scenario accepts either splitting or not splitting.
- Earliest versus latest: within the window, the model cuts at the earliest boundary of the best kind. The implementation may prefer the latest one. The scenarios' assertions hold either way.
- Whitespace after a cut: the model drops the whole whitespace run, so a chunk never ends with the newline the fence scenario tolerates.
- Configuration: invalid bounds are rejected by `MakeConfig`. The implementation may clamp them instead.
- Scenarios.ForcedShortTextExample: stated for any 150-character text, since the scenario's own assertions depend only on its length.
- Scenarios.LongParagraphExample: stated for any 934-character paragraph of prose with a sentence end at 360. The scenario's literal is not checked character by character against these facts.
- Scenarios.NoWordFallbackExample: stated for any 144-character paragraph of prose whose only sentence end is at 4. Its literal is abstracted in the same way.
- DrainProperties.ChunksKeepFencesWhole: a forced drain's last chunk may end inside a fence that never closed. The design promises both a full flush at the end of the stream and whole fenced blocks, and these conflict only for an unclosed fence. The model lets the full flush win.
- DrainProperties.ChunksRespectCeiling: the ceiling holds only outside fences. A chunk runs past `maxChars` when `maxChars` falls inside a fenced block, because the model keeps fenced blocks whole rather than cutting at `maxChars`. The overrun is bounded: `Chunker.HardCut`, `Chunker.PatientCutPrefersRank` and `Chunker.ForcedCutPrefersRank` state that a hard cut is the first admissible position from `maxChars` on. If an unclosed fence covers everything from `maxChars` on and the window `[minChars, maxChars]` holds no paragraph, sentence or word break (`Chunker.NoCutAvailable`), a non-forced drain emits nothing. The buffer then keeps growing past `maxChars` until the fence closes, a break arrives, or a forced drain flushes it. A break before the fence is still cut.
- Chunker.PatientCut: once the buffer has reached `maxChars` and the window `[minChars, maxChars]` holds no paragraph, sentence or word break, the model cuts at the first admissible position from `maxChars` on, even mid-word. It does not fall back to a boundary below `minChars`, and the scenarios do not exercise that case. `DrainProperties.PatientHardCutAtCeiling` states this choice.
- Fences.CountBelow: its contract only bounds the count by the number of markers. The fact that it splits the markers at `x` is the separate lemma `Fences.CountBelowSplits`, so that unfolding the fence state stays cheap.

=== FILE: boundaries.dfy ===
/** The boundary selector's vocabulary: the kinds of cut point, ranked, and the
    search for the earliest cut of the best kind inside a window of positions. */
module Boundaries {
  import opened Wrappers
  import opened Text
  import opened Fences

  /** Kinds of cut point, from the least to the most preferred. `Hard` is any
      admissible position: the cut of last resort. */
  datatype Kind = Hard | Word | Sentence | Paragraph

  function Rank(k: Kind): nat {
    match k
    case Hard => 0
    case Word => 1
    case Sentence => 2
    case Paragraph => 3
  }

  /** A blank line starts at `p`: the chunk ends before it. */
  predicate BlankLineAt(s: seq<char>, p: int) {
    0 <= p && p + 1 < |s| && s[p] == '\n' && s[p + 1] == '\n'
  }

  /** The chunk `s[..p]` ends with `.`, `!` or `?` that is followed by whitespace or
      by the end of the buffer. */
  predicate SentenceEndAt(s: seq<char>, p: int) {
    0 < p <= |s| && IsTerminal(s[p - 1]) && (p == |s| || IsSpace(s[p]))
  }

  /** A plain space follows the chunk `s[..p]`. */
  predicate WordBreakAt(s: seq<char>, p: int) {
    0 <= p < |s| && s[p] == ' '
  }

  /** The text around `p` has the shape of a `k` boundary; a closed code block counts
      as a paragraph end. */
  predicate Shaped(s: seq<char>, p: int, k: Kind) {
    match k
    case Paragraph => BlankLineAt(s, p) || ClosesFenceAt(s, p)
    case Sentence => SentenceEndAt(s, p)
    case Word => WordBreakAt(s, p)
    case Hard => true
  }

  /** A usable cut of kind `k` at `p`: the chunk is not empty, the cut is not inside
      a fenced block, and the text has the shape of that kind. */
  predicate IsBreak(s: seq<char>, p: int, k: Kind) {
    0 < p <= |s| && OutsideFence(s, p) && Shaped(s, p, k)
  }

  predicate NoBreakIn(s: seq<char>, k: Kind, lo: int, hi: int) {
    forall q :: lo <= q <= hi ==> !IsBreak(s, q, k)
  }

  /** No cut of any ranked kind above `k` lies in the window `[lo, hi]`. */
  predicate NoHigherBreakIn(s: seq<char>, k: Kind, lo: int, hi: int) {
    && (Rank(k) < Rank(Paragraph) ==> NoBreakIn(s, Paragraph, lo, hi))
    && (Rank(k) < Rank(Sentence) ==> NoBreakIn(s, Sentence, lo, hi))
    && (Rank(k) < Rank(Word) ==> NoBreakIn(s, Word, lo, hi))
  }

  /** The earliest cut of kind `k` in the window `[lo, hi]`. */
  function FirstBreak(s: seq<char>, k: Kind, lo: int, hi: int): (r: Option<int>)
    decreases hi + 1 - lo
    ensures r.Some? ==> lo <= r.value <= hi && IsBreak(s, r.value, k)
    ensures r.Some? ==> NoBreakIn(s, k, lo, r.value - 1)
    ensures r.None? <==> NoBreakIn(s, k, lo, hi)
  {
    if hi < lo then None
    else if IsBreak(s, lo, k) then Some(lo)
    else FirstBreak(s, k, lo + 1, hi)
  }

  /** Why a chunk ends where it does: a boundary of some kind, or (forced drains
      only) because it is everything that is left. */
  datatype Reason = Break(kind: Kind) | Remainder
  datatype Cut = Cut(at: int, reason: Reason)

  /** The kind of cut the selector takes next after `k`, from the most preferred down. */
  function Below(k: Kind): Kind
    requires k != Hard
  {
    match k
    case Paragraph => Sentence
    case Sentence => Word
    case Word => Hard
  }

  /** The earliest cut of the highest-ranked kind present in `[lo, hi]`, trying the
      kinds from `k` down to `floor`. */
  function BestBreak(s: seq<char>, lo: int, hi: int, k: Kind, floor: Kind): (r: Option<Cut>)
    requires Rank(floor) <= Rank(k)
    decreases Rank(k)
    ensures r.Some? ==> r.value.reason.Break? && lo <= r.value.at <= hi
    ensures r.Some? ==> Rank(floor) <= Rank(r.value.reason.kind) <= Rank(k)
    ensures r.Some? ==> IsBreak(s, r.value.at, r.value.reason.kind)
    ensures r.Some? ==> NoBreakIn(s, r.value.reason.kind, lo, r.value.at - 1)
    ensures r.Some? ==> forall j :: Rank(r.value.reason.kind) < Rank(j) <= Rank(k) ==>
              NoBreakIn(s, j, lo, hi)
    ensures r.None? <==> forall j :: Rank(floor) <= Rank(j) <= Rank(k) ==> NoBreakIn(s, j, lo, hi)
  {
    match FirstBreak(s, k, lo, hi)
    case Some(p) => Some(Cut(p, Break(k)))
    case None =>
      if k == floor then None
      else
        var r := BestBreak(s, lo, hi, Below(k), floor);
        assert forall j :: Rank(j) <= Rank(k) ==> j == k || Rank(j) <= Rank(Below(k));
        r
  }
}

=== FILE: chunker.dfy ===
/** The streaming chunker: a configuration, a buffer that `Append` grows, and
    `Drain`, which cuts chunks off the front of the buffer until no admissible cut
    is left under the current mode. */
module Chunker {
  import opened Wrappers
  import opened Text
  import opened Fences
  import opened Boundaries

  /** Size bounds of a chunker. Only the `"paragraph"` break preference is modelled,
      so it is not a field. */
  datatype Config = Config(minChars: int, maxChars: int) {
    predicate Valid() {
      0 < minChars <= maxChars
    }
  }

  datatype ConfigError = MinNotPositive | MaxBelowMin

  /** Builds a configuration, refusing bounds that violate `0 < minChars <= maxChars`. */
  function MakeConfig(minChars: int, maxChars: int): (r: Result<Config, ConfigError>)
    ensures r.Success? <==> 0 < minChars <= maxChars
    ensures r.Success? ==> r.value.Valid()
    ensures r.Success? ==> r.value.minChars == minChars && r.value.maxChars == maxChars
    ensures minChars <= 0 ==> r == Failure(MinNotPositive)
  {
    if minChars <= 0 then Failure(MinNotPositive)
    else if maxChars < minChars then Failure(MaxBelowMin)
    else Success(Config(minChars, maxChars))
  }

  /** A chunk that fits the ceiling, or that overruns it only because the position
      `maxChars` lies inside one of the chunk's own fenced blocks. */
  predicate WithinCeiling(c: Config, chunk: seq<char>) {
    |chunk| <= c.maxChars || !OutsideFence(chunk, c.maxChars)
  }

  /** The next cut of a drain, or `None` when the drain stops. */
  function SelectCut(c: Config, s: seq<char>, force: bool): (r: Option<Cut>)
    requires c.Valid()
    ensures r.Some? ==> 0 < r.value.at <= |s|
    ensures r.Some? && r.value.reason.Break? ==> IsBreak(s, r.value.at, r.value.reason.kind)
    ensures r.Some? && r.value.reason.Remainder? ==> force && r.value.at == |s|
    ensures r.Some? && !force ==> c.minChars <= r.value.at
    ensures r.Some? && r.value.at > c.maxChars ==> !OutsideFence(s, c.maxChars)
    ensures r.Some? && !force && |s| < c.maxChars ==> Rank(r.value.reason.kind) >= Rank(Sentence)
    ensures r.None? <==> if force then |s| == 0 else NoCutAvailable(c, s)
  {
    if force then ForcedCut(c, s) else PatientCut(c, s)
  }

  /** The cut of last resort: the first admissible position from `maxChars` on, so
      that a chunk overruns the ceiling only to keep a fenced block whole. */
  function HardCut(c: Config, s: seq<char>): (r: Option<Cut>)
    requires c.Valid()
    ensures r.Some? ==> r.value.reason == Break(Hard) && c.maxChars <= r.value.at
    ensures r.Some? ==> IsBreak(s, r.value.at, Hard)
    ensures r.Some? ==> NoBreakIn(s, Hard, c.maxChars, r.value.at - 1)
    ensures r.Some? && r.value.at > c.maxChars ==> !OutsideFence(s, c.maxChars)
    ensures r.None? <==> NoBreakIn(s, Hard, c.maxChars, |s|)
  {
    match FirstBreak(s, Hard, c.maxChars, |s|)
    case Some(q) => Some(Cut(q, Break(Hard)))
    case None => None
  }

  /** A non-forced cut lies at or after `minChars`. While the buffer is shorter than
      `maxChars` only paragraph and sentence ends count; once it has reached
      `maxChars`, word breaks join them, and failing all of those the cut is a hard
      one. */
  function PatientCut(c: Config, s: seq<char>): (r: Option<Cut>)
    requires c.Valid()
    ensures r.Some? ==> r.value.reason.Break? && c.minChars <= r.value.at <= |s|
    ensures r.Some? ==> IsBreak(s, r.value.at, r.value.reason.kind)
    ensures r.Some? && r.value.at > c.maxChars ==> !OutsideFence(s, c.maxChars)
    ensures r.Some? && |s| < c.maxChars ==> Rank(r.value.reason.kind) >= Rank(Sentence)
    ensures r.None? <==> NoCutAvailable(c, s)
  {
    if |s| < c.maxChars then BestBreak(s, c.minChars, |s|, Paragraph, Sentence)
    else match BestBreak(s, c.minChars, c.maxChars, Paragraph, Word)
      case Some(cut) => Some(cut)
      case None => HardCut(c, s)
  }

  /** Rank preference of a non-forced cut: no better kind of boundary lies in the
      window from `minChars`, a ranked cut is the earliest of its kind there, and a
      hard cut is the first admissible position from `maxChars` on, taken only once
      the buffer has reached `maxChars` and the window holds no paragraph, sentence
      or word break. */
  lemma PatientCutPrefersRank(c: Config, s: seq<char>)
    requires c.Valid()
    ensures var r := PatientCut(c, s);
            && (r.Some? ==> NoHigherBreakIn(s, r.value.reason.kind, c.minChars, Window(c, s)))
            && (r.Some? && r.value.reason.kind != Hard ==>
                  r.value.at <= Window(c, s) && NoBreakIn(s, r.value.reason.kind, c.minChars, r.value.at - 1))
            && (r.Some? && r.value.reason.kind == Hard ==>
                  c.maxChars <= |s| && c.maxChars <= r.value.at && NoBreakIn(s, Hard, c.maxChars, r.value.at - 1))
  {
  }

  /** A forced drain emits a buffer that fits in `maxChars` whole; a longer one is
      cut at the best boundary up to `maxChars` without the `minChars` floor, else
      hard-cut, else (an unclosed fence covers everything from `maxChars` on)
      emitted whole. */
  function ForcedCut(c: Config, s: seq<char>): (r: Option<Cut>)
    requires c.Valid()
    ensures r.Some? ==> 0 < r.value.at <= |s|
    ensures r.Some? && r.value.reason.Break? ==> IsBreak(s, r.value.at, r.value.reason.kind)
    ensures r.Some? && r.value.reason.Remainder? ==> r.value.at == |s|
    ensures r.Some? && r.value.at > c.maxChars ==> !OutsideFence(s, c.maxChars)
    ensures r.None? <==> |s| == 0
  {
    if |s| == 0 then None
    else if |s| <= c.maxChars then Some(Cut(|s|, Remainder))
    else match BestBreak(s, 1, c.maxChars, Paragraph, Word)
      case Some(cut) => Some(cut)
      case None =>
        match HardCut(c, s)
        case Some(cut) => Some(cut)
        case None => Some(Cut(|s|, Remainder))
  }

  /** Rank preference of a forced split, once the buffer exceeds `maxChars`: no
      better kind of boundary lies in `[1, maxChars]`, a ranked cut is the earliest
      of its kind there, a hard cut is the first admissible position from `maxChars`
      on, and the whole remainder is taken only when the window holds no ranked
      boundary and nothing from `maxChars` on is admissible. */
  lemma ForcedCutPrefersRank(c: Config, s: seq<char>)
    requires c.Valid() && |s| > c.maxChars
    ensures var r := ForcedCut(c, s);
            && r.Some?
            && (r.value.reason.Break? ==> NoHigherBreakIn(s, r.value.reason.kind, 1, c.maxChars))
            && (r.value.reason.Break? && r.value.reason.kind != Hard ==>
                  r.value.at <= c.maxChars && NoBreakIn(s, r.value.reason.kind, 1, r.value.at - 1))
            && (r.value.reason == Break(Hard) ==>
                  c.maxChars <= r.value.at && NoBreakIn(s, Hard, c.maxChars, r.value.at - 1))
            && (r.value.reason.Remainder? ==>
                  NoHigherBreakIn(s, Hard, 1, c.maxChars) && NoBreakIn(s, Hard, c.maxChars, |s|))
  {
  }

  /** A non-forced drain has nothing to cut: no paragraph or sentence end lies in
      the window from `minChars`; and if the buffer has reached `maxChars`, no word
      break lies in the window either and no admissible position lies at or after
      `maxChars` (an unclosed fence covers them all). */
  predicate NoCutAvailable(c: Config, s: seq<char>) {
    && NoBreakIn(s, Paragraph, c.minChars, Window(c, s))
    && NoBreakIn(s, Sentence, c.minChars, Window(c, s))
    && (|s| >= c.maxChars ==> NoBreakIn(s, Word, c.minChars, Window(c, s)) && NoBreakIn(s, Hard, c.maxChars, |s|))
  }

  /** The last position a non-forced ranked cut may take: the end of the buffer, or
      `maxChars` once the buffer has reached it. */
  function Window(c: Config, s: seq<char>): int {
    if |s| < c.maxChars then |s| else c.maxChars
  }

  /** One emitted chunk and the whitespace dropped between it and the next text. */
  datatype Piece = Piece(chunk: seq<char>, gap: seq<char>) {
    /** The chunk is not empty and only whitespace is dropped after it. */
    predicate Emittable() {
      |chunk| > 0 && AllSpace(gap)
    }
  }

  /** What a drain produced, in emission order, and the buffer it leaves. */
  datatype Drained = Drained(pieces: seq<Piece>, rest: seq<char>)

  /** The text the pieces were cut from, separators included. */
  function Join(ps: seq<Piece>): seq<char> {
    if |ps| == 0 then [] else ps[0].chunk + ps[0].gap + Join(ps[1..])
  }

  /** The chunks handed to `emit`, in order. */
  function Chunks(ps: seq<Piece>): seq<seq<char>> {
    seq(|ps|, i requires 0 <= i < |ps| => ps[i].chunk)
  }

  lemma JoinCons(s: seq<char>, at: nat, r: nat, tail: Drained)
    requires at <= r <= |s|
    requires Join(tail.pieces) + tail.rest == s[r..]
    ensures Join([Piece(s[..at], s[at..r])] + tail.pieces) + tail.rest == s
  {
    var ps := [Piece(s[..at], s[at..r])] + tail.pieces;
    assert ps[1..] == tail.pieces;
    calc {
      Join(ps) + tail.rest;
      s[..at] + s[at..r] + Join(tail.pieces) + tail.rest;
      s[..at] + s[at..r] + (Join(tail.pieces) + tail.rest);
      s[..at] + s[at..r] + s[r..];
      s;
    }
  }

  /** Cuts chunks off the front of `s` until `SelectCut` finds no cut; the whitespace
      run after each cut is dropped so the next chunk starts at visible text. */
  function Drain(c: Config, s: seq<char>, force: bool): (d: Drained)
    requires c.Valid()
    decreases |s|
    // Nothing is created, dropped or reordered, apart from whitespace between chunks.
    ensures Join(d.pieces) + d.rest == s
    // A drain that emits nothing leaves the buffer as it was.
    ensures |d.pieces| == 0 <==> SelectCut(c, s, force).None?
    ensures |d.pieces| == 0 ==> d.rest == s
  {
    match SelectCut(c, s, force)
    case None => Drained([], s)
    case Some(cut) =>
      var r := SkipSpace(s, cut.at);
      var tail := Drain(c, s[r..], force);
      var piece := Piece(s[..cut.at], s[cut.at..r]);
      var ps := [piece] + tail.pieces;
      JoinCons(s, cut.at, r, tail);
      Drained(ps, tail.rest)
  }

  /** The first step of `Drain`: the cut it makes and where the rest resumes. */
  lemma DrainStep(c: Config, s: seq<char>, force: bool, cut: Cut)
    requires c.Valid() && SelectCut(c, s, force) == Some(cut)
    ensures var r := SkipSpace(s, cut.at);
            Drain(c, s, force) ==
              Drained([Piece(s[..cut.at], s[cut.at..r])] + Drain(c, s[r..], force).pieces,
                      Drain(c, s[r..], force).rest)
  {
  }

  /** The first chunk of a drain is the buffer up to the first cut. */
  lemma FirstPiece(c: Config, s: seq<char>, force: bool, cut: Cut)
    requires c.Valid() && SelectCut(c, s, force) == Some(cut)
    ensures |Drain(c, s, force).pieces| >= 1
    ensures Drain(c, s, force).pieces[0].chunk == s[..cut.at]
  {
    DrainStep(c, s, force, cut);
  }

  lemma ChunksCons(p: Piece, ps: seq<Piece>)
    ensures Chunks([p] + ps) == [p.chunk] + Chunks(ps)
  {
  }

  lemma {:induction false} JoinAppend(a: seq<Piece>, b: seq<Piece>)
    ensures Join(a + b) == Join(a) + Join(b)
  {
    if |a| > 0 {
      assert (a + b)[1..] == a[1..] + b;
      JoinAppend(a[1..], b);
    } else {
      assert a + b == b;
    }
  }

  /** A chunker instance: its configuration and the text appended but not yet
      emitted. */
  datatype EmbeddedBlockChunker = EmbeddedBlockChunker(config: Config, buffer: seq<char>) {

    /** Appending grows the buffer at its tail and emits nothing. */
    function Append(text: seq<char>): EmbeddedBlockChunker {
      EmbeddedBlockChunker(config, buffer + text)
    }

    /** The text not yet emitted, exactly as later drains will see it. */
    function BufferedText(): seq<char> {
      buffer
    }

    /** The pieces a drain emits, in order, and the chunker left behind. */
    function DrainAll(force: bool): (seq<Piece>, EmbeddedBlockChunker)
      requires config.Valid()
    {
      var d := Drain(config, buffer, force);
      (d.pieces, EmbeddedBlockChunker(config, d.rest))
    }
  }

  /** Appending keeps the configuration and the buffered text, and puts the new text
      after it. */
  lemma AppendExtends(ch: EmbeddedBlockChunker, text: seq<char>)
    ensures var next := ch.Append(text);
            && next.config == ch.config
            && StartsWith(next.BufferedText(), ch.BufferedText())
            && EndsWith(next.BufferedText(), text)
            && |next.BufferedText()| == |ch.BufferedText()| + |text|
  {
  }

  /** A drain call keeps the configuration, loses no text, and leaves the chunker as
      it was when it emits nothing. */
  lemma DrainAllConserves(ch: EmbeddedBlockChunker, force: bool)
    requires ch.config.Valid()
    ensures var (ps, next) := ch.DrainAll(force);
            && next.config == ch.config
            && Join(ps) + next.BufferedText() == ch.BufferedText()
            && (|ps| == 0 ==> next == ch)
  {
  }

  function NewChunker(c: Config): EmbeddedBlockChunker {
    EmbeddedBlockChunker(c, [])
  }

  /** The calls a producer makes on a chunker. */
  datatype Call = AppendCall(text: seq<char>) | DrainCall(force: bool)

  /** All text appended by `calls`, in order. */
  function Appended(calls: seq<Call>): seq<char> {
    if |calls| == 0 then []
    else (if calls[0].AppendCall? then calls[0].text else []) + Appended(calls[1..])
  }

  /** Performs `calls` in order, collecting every emitted piece. */
  function Run(ch: EmbeddedBlockChunker, calls: seq<Call>): (r: (seq<Piece>, EmbeddedBlockChunker))
    requires ch.config.Valid()
    decreases |calls|
    ensures r.1.config == ch.config
  {
    if |calls| == 0 then ([], ch)
    else
      match calls[0]
      case AppendCall(text) => Run(ch.Append(text), calls[1..])
      case DrainCall(force) =>
        var (ps, next) := ch.DrainAll(force);
        var (more, last) := Run(next, calls[1..]);
        (ps + more, last)
  }

  /** Over any sequence of appends and drains, the emitted chunks with the
      whitespace dropped between them, followed by the buffered text, are exactly
      the text that was there plus everything appended. */
  lemma {:induction false} RunConservesText(ch: EmbeddedBlockChunker, calls: seq<Call>)
    requires ch.config.Valid()
    decreases |calls|
    ensures Join(Run(ch, calls).0) + Run(ch, calls).1.BufferedText()
            == ch.BufferedText() + Appended(calls)
  {
    if |calls| > 0 {
      match calls[0]
      case AppendCall(text) =>
        RunConservesText(ch.Append(text), calls[1..]);
        assert ch.buffer + text + Appended(calls[1..]) == ch.buffer + (text + Appended(calls[1..]));
      case DrainCall(force) =>
        var (ps, next) := ch.DrainAll(force);
        RunConservesText(next, calls[1..]);
        var (more, last) := Run(next, calls[1..]);
        assert Run(ch, calls) == (ps + more, last);
        DrainAllConserves(ch, force);
        DrainCallConserves(ch.buffer, ps, more, next.buffer, last.buffer, Appended(calls[1..]));
        assert Appended(calls) == Appended(calls[1..]);
    }
  }

  /** The bookkeeping of one drain call inside a run. */
  lemma DrainCallConserves(b: seq<char>, ps: seq<Piece>, more: seq<Piece>,
                           next: seq<char>, last: seq<char>, t: seq<char>)
    requires Join(ps) + next == b
    requires Join(more) + last == next + t
    ensures Join(ps + more) + last == b + t
  {
    JoinAppend(ps, more);
    Regroup(Join(ps), Join(more), last, next, t);
  }

  /** One turn of the drain loop: the first chunk, then whatever draining the
      remainder emits. */
  lemma EmitFirst(c: Config, s: seq<char>, force: bool, cut: Cut)
    requires c.Valid() && SelectCut(c, s, force) == Some(cut)
    ensures var r := SkipSpace(s, cut.at);
            && Chunks(Drain(c, s, force).pieces) == [s[..cut.at]] + Chunks(Drain(c, s[r..], force).pieces)
            && Drain(c, s, force).rest == Drain(c, s[r..], force).rest
  {
    var r := SkipSpace(s, cut.at);
    DrainStep(c, s, force, cut);
    ChunksCons(Piece(s[..cut.at], s[cut.at..r]), Drain(c, s[r..], force).pieces);
  }

  /** The drain loop as the chunker runs it: find a cut, emit the chunk, and only
      then shrink the buffer, until no cut is left. It emits exactly the chunks of
      `Drain`, in the same order, and leaves the same buffer. */
  method DrainLoop(c: Config, s: seq<char>, force: bool) returns (emitted: seq<seq<char>>, rest: seq<char>)
    requires c.Valid()
    ensures emitted == Chunks(Drain(c, s, force).pieces)
    ensures rest == Drain(c, s, force).rest
  {
    emitted := [];
    rest := s;
    var next := SelectCut(c, rest, force);
    while next.Some?
      invariant next == SelectCut(c, rest, force)
      invariant Chunks(Drain(c, s, force).pieces) == emitted + Chunks(Drain(c, rest, force).pieces)
      invariant Drain(c, s, force).rest == Drain(c, rest, force).rest
      decreases |rest|
    {
      var cut := next.value;
      var r := SkipSpace(rest, cut.at);
      EmitFirst(c, rest, force, cut);
      Assoc(emitted, [rest[..cut.at]], Chunks(Drain(c, rest[r..], force).pieces));
      emitted := emitted + [rest[..cut.at]];
      rest := rest[r..];
      next := SelectCut(c, rest, force);
    }
  }
}

=== FILE: fences.dfy ===
/** The fence tracker: finds the triple-backtick markers in a buffer and decides,
    for every cut position, whether it lies inside a fenced code block.

    Markers are found left to right without overlap; marker 0 opens a fence,
    marker 1 closes it, marker 2 opens the next one, and so on. A cut at
    position `p` means the chunk is `s[..p]`.

    The definitions carry no quantified contracts, so that unfolding them stays
    cheap wherever a drain is reasoned about; their facts are lemmas. */
module Fences {

  /** The text that opens and closes a fenced code block. */
  const Marker: seq<char> := "```"

  /** True when a complete marker starts at index `i`, compared character by
      character. */
  predicate FenceAt(s: seq<char>, i: int) {
    0 <= i && i + 3 <= |s| && s[i] == '`' && s[i + 1] == '`' && s[i + 2] == '`'
  }

  /** `FenceAt` finds exactly the occurrences of `Marker`. */
  lemma FenceAtIsMarker(s: seq<char>, i: int)
    ensures FenceAt(s, i) <==> 0 <= i && i + |Marker| <= |s| && s[i..i + |Marker|] == Marker
  {
    if 0 <= i && i + 3 <= |s| && s[i..i + 3] == Marker {
      assert s[i + 1] == s[i..i + 3][1];
      assert s[i + 2] == s[i..i + 3][2];
    }
  }

  /** Marker positions in scan order: each starts at least three characters after
      the one before it. */
  predicate Increasing(ms: seq<int>) {
    forall k, l :: 0 <= k < l < |ms| ==> ms[k] + 3 <= ms[l]
  }

  /** The markers found by scanning `s` left to right from index `i`; a marker
      found consumes its three characters. */
  function MarkersFrom(s: seq<char>, i: nat): seq<int>
    decreases |s| - i
  {
    if |s| < i + 3 then []
    else if FenceAt(s, i) then [i] + MarkersFrom(s, i + 3)
    else MarkersFrom(s, i + 1)
  }

  function Markers(s: seq<char>): seq<int> {
    MarkersFrom(s, 0)
  }

  /** Every marker found is a real occurrence of the marker text, at or after `i`,
      and the markers do not overlap. */
  lemma {:induction false} MarkersFromSound(s: seq<char>, i: nat)
    decreases |s| - i
    ensures var ms := MarkersFrom(s, i);
            Increasing(ms) && forall k :: 0 <= k < |ms| ==> i <= ms[k] && FenceAt(s, ms[k])
  {
    if |s| < i + 3 {
    } else if FenceAt(s, i) {
      var rest := MarkersFrom(s, i + 3);
      MarkersFromSound(s, i + 3);
      var ms := [i] + rest;
      assert forall k :: 1 <= k < |ms| ==> ms[k] == rest[k - 1];
      assert forall k :: 0 <= k < |ms| ==> i <= ms[k] && FenceAt(s, ms[k]);
    } else {
      MarkersFromSound(s, i + 1);
    }
  }

  lemma MarkersSound(s: seq<char>)
    ensures var ms := Markers(s);
            Increasing(ms) && forall k :: 0 <= k < |ms| ==> FenceAt(s, ms[k])
  {
    MarkersFromSound(s, 0);
  }

  /** Marker number `k` of `ms` occupies index `j`. */
  predicate Covers(ms: seq<int>, k: int, j: int) {
    0 <= k < |ms| && ms[k] <= j < ms[k] + 3
  }

  /** The scan misses nothing: every occurrence of the marker text from `i` on lies
      within a found marker (it is one, or overlaps the one found before it). */
  lemma {:induction false} MarkersFromComplete(s: seq<char>, i: nat, j: int)
    requires i <= j && FenceAt(s, j)
    decreases |s| - i
    ensures exists k :: Covers(MarkersFrom(s, i), k, j)
  {
    var ms := MarkersFrom(s, i);
    if FenceAt(s, i) {
      if j < i + 3 {
        assert Covers(ms, 0, j);
      } else {
        MarkersFromComplete(s, i + 3, j);
        var k :| Covers(MarkersFrom(s, i + 3), k, j);
        assert Covers(ms, k + 1, j);
      }
    } else {
      MarkersFromComplete(s, i + 1, j);
    }
  }

  /** The length of the leading run of `ms` below `x`: for increasing positions,
      how many of them lie below `x`. */
  function CountBelow(ms: seq<int>, x: int): (n: nat)
    ensures n <= |ms|
  {
    if |ms| == 0 || x <= ms[0] then 0 else 1 + CountBelow(ms[1..], x)
  }

  /** On increasing positions the count splits them at `x`. */
  lemma {:induction false} CountBelowSplits(ms: seq<int>, x: int)
    requires Increasing(ms)
    ensures var n := CountBelow(ms, x);
            && (forall k :: 0 <= k < n ==> ms[k] < x)
            && (forall k :: n <= k < |ms| ==> x <= ms[k])
  {
    if |ms| > 0 && ms[0] < x {
      CountBelowSplits(ms[1..], x);
    }
  }

  /** Admissibility against a list of marker positions: no marker is split by a cut
      at `p` (the markers starting before `p` are those ending by `p`), and the
      markers before it pair up into closed fences. */
  predicate Balanced(ms: seq<int>, p: int) {
    CountBelow(ms, p) == CountBelow(ms, p - 2) && CountBelow(ms, p) % 2 == 0
  }

  /** A cut at `p` is admissible: it splits no marker and every fence opened before
      it has been closed before it. */
  predicate OutsideFence(s: seq<char>, p: int) {
    Balanced(Markers(s), p)
  }

  /** `p` is the position just after a closing marker. */
  predicate ClosesFenceAt(s: seq<char>, p: int) {
    var ms := Markers(s);
    exists k :: 0 <= k < |ms| && k % 2 == 1 && ms[k] + 3 == p
  }

  /** Every fence the text opens, it also closes. */
  predicate FenceBalanced(s: seq<char>) {
    |Markers(s)| % 2 == 0
  }

  /** `p` lies in the span of fence number `j`: after the start of its opening marker
      and before the end of its closing marker, or anywhere after the opening marker
      when the closing one has not arrived yet. */
  predicate InSpan(ms: seq<int>, j: nat, p: int) {
    2 * j < |ms| && ms[2 * j] < p && (2 * j + 1 == |ms| || p < ms[2 * j + 1] + 3)
  }

  ghost predicate InSomeFence(s: seq<char>, p: int) {
    exists j: nat :: InSpan(Markers(s), j, p)
  }

  lemma BalancedIffNoSpan(ms: seq<int>, p: int)
    requires Increasing(ms)
    ensures Balanced(ms, p) <==> forall j: nat :: !InSpan(ms, j, p)
  {
    var a, b := CountBelow(ms, p), CountBelow(ms, p - 2);
    CountBelowSplits(ms, p);
    CountBelowSplits(ms, p - 2);
    assert a < |ms| ==> p <= ms[a];
    assert b <= a;
    if !Balanced(ms, p) {
      if a % 2 == 1 {
        var j: nat := (a - 1) / 2;
        assert InSpan(ms, j, p);
      } else {
        assert b < a;
        var j: nat := (a - 2) / 2;
        assert ms[a - 1] >= p - 2;
        assert InSpan(ms, j, p);
      }
    } else {
      forall j: nat
        ensures !InSpan(ms, j, p)
      {
        assert 2 * j < |ms| && ms[2 * j] < p ==> 2 * j < a;
        assert 2 * j + 1 < |ms| && p < ms[2 * j + 1] + 3 ==> b <= 2 * j + 1;
      }
    }
  }

  /** The counting definition of admissibility agrees with the span definition:
      a cut is admissible exactly when it lies in no fence span. */
  lemma OutsideFenceIffNoSpan(s: seq<char>, p: int)
    ensures OutsideFence(s, p) <==> !InSomeFence(s, p)
  {
    MarkersSound(s);
    BalancedIffNoSpan(Markers(s), p);
  }

  /** The position just after a closing marker is always admissible. */
  lemma CloseIsOutside(s: seq<char>, p: int)
    requires ClosesFenceAt(s, p)
    ensures OutsideFence(s, p)
  {
    var ms := Markers(s);
    MarkersSound(s);
    var k :| 0 <= k < |ms| && k % 2 == 1 && ms[k] + 3 == p;
    CountBelowSplits(ms, p);
    CountBelowSplits(ms, p - 2);
    if k + 1 < |ms| { assert ms[k] + 3 <= ms[k + 1]; }
    assert CountBelow(ms, p) == k + 1;
    assert CountBelow(ms, p - 2) == k + 1;
  }

  /** Text without any marker is never inside a fence, and no fence closes in it. */
  lemma NoMarkersNoFence(s: seq<char>, p: int)
    requires forall i | 0 <= i < |s| :: !FenceAt(s, i)
    ensures Markers(s) == []
    ensures OutsideFence(s, p) && !ClosesFenceAt(s, p)
  {
    MarkersSound(s);
    var ms := Markers(s);
    assert |ms| > 0 ==> FenceAt(s, ms[0]);
  }

  /** Scanning a prefix finds exactly the markers of the whole buffer that end
      within the prefix: text appended later never changes those. */
  lemma {:induction false} PrefixMarkersFrom(s: seq<char>, n: nat, i: nat)
    requires n <= |s|
    decreases |s| - i
    ensures MarkersFrom(s[..n], i) == MarkersFrom(s, i)[..CountBelow(MarkersFrom(s, i), n - 2)]
  {
    var ms := MarkersFrom(s, i);
    MarkersFromSound(s, i);
    if n < i + 3 {
      assert |ms| > 0 ==> i <= ms[0];
      assert CountBelow(ms, n - 2) == 0;
    } else if FenceAt(s, i) {
      assert FenceAt(s[..n], i);
      PrefixMarkersFrom(s, n, i + 3);
      PrefixMarkersAtFence(s, n, i);
    } else {
      assert !FenceAt(s[..n], i);
      PrefixMarkersFrom(s, n, i + 1);
    }
  }

  lemma PrefixMarkersAtFence(s: seq<char>, n: nat, i: nat)
    requires n <= |s| && i + 3 <= n && FenceAt(s, i)
    requires MarkersFrom(s[..n], i + 3) ==
             MarkersFrom(s, i + 3)[..CountBelow(MarkersFrom(s, i + 3), n - 2)]
    ensures MarkersFrom(s[..n], i) == MarkersFrom(s, i)[..CountBelow(MarkersFrom(s, i), n - 2)]
  {
    assert FenceAt(s[..n], i);
    var rest := MarkersFrom(s, i + 3);
    var ms := MarkersFrom(s, i);
    assert ms == [i] + rest;
    assert ms[1..] == rest;
    var c := CountBelow(rest, n - 2);
    assert CountBelow(ms, n - 2) == 1 + c;
    assert ms[..1 + c] == [i] + rest[..c];
  }

  lemma PrefixMarkers(s: seq<char>, n: nat)
    requires n <= |s|
    ensures Markers(s[..n]) == Markers(s)[..CountBelow(Markers(s), n - 2)]
  {
    PrefixMarkersFrom(s, n, 0);
  }

  lemma CountBelowPrefix(ms: seq<int>, c: nat, x: int)
    requires Increasing(ms) && c <= |ms|
    requires c == |ms| || x <= ms[c]
    ensures CountBelow(ms[..c], x) == CountBelow(ms, x)
  {
    var a, b := CountBelow(ms[..c], x), CountBelow(ms, x);
    assert Increasing(ms[..c]);
    CountBelowSplits(ms[..c], x);
    CountBelowSplits(ms, x);
    assert a < c ==> x <= ms[a];
    assert b < |ms| ==> x <= ms[b];
    assert a <= b;
    assert b <= a;
  }

  /** A chunk cut at an admissible position is fence-balanced (every fence it opens,
      it closes), and every position inside it has the same fence state in the chunk
      as in the buffer it was cut from. */
  lemma ChunkFenceState(s: seq<char>, n: nat, q: int)
    requires n <= |s| && OutsideFence(s, n) && q <= n
    ensures FenceBalanced(s[..n])
    ensures OutsideFence(s[..n], q) == OutsideFence(s, q)
  {
    var ms := Markers(s);
    MarkersSound(s);
    var c := CountBelow(ms, n - 2);
    CountBelowSplits(ms, n);
    PrefixMarkers(s, n);
    assert c == |ms| || n <= ms[c];
    CountBelowPrefix(ms, c, q);
    CountBelowPrefix(ms, c, q - 2);
  }
}

=== FILE: properties.dfy ===
/** What a drain guarantees, over every buffer and configuration: full flush when
    forced, the size window, fence integrity, rank preference, and waiting for
    more text when no admissible cut exists. */
module DrainProperties {
  import opened Wrappers
  import opened Text
  import opened Fences
  import opened Boundaries
  import opened Chunker

  /** Every emitted chunk is non-empty, and only whitespace is dropped between it and
      the text that follows. */
  lemma {:induction false} PiecesAreEmittable(c: Config, s: seq<char>, force: bool)
    requires c.Valid()
    decreases |s|
    ensures forall i :: 0 <= i < |Drain(c, s, force).pieces| ==>
              Drain(c, s, force).pieces[i].Emittable()
  {
    match SelectCut(c, s, force)
    case None =>
    case Some(cut) =>
      DrainStep(c, s, force, cut);
      PiecesAreEmittable(c, s[SkipSpace(s, cut.at)..], force);
  }

  /** A forced drain emits at least one chunk for a non-empty buffer and leaves the
      buffer empty. */
  lemma {:induction false} ForcedDrainFlushes(c: Config, s: seq<char>)
    requires c.Valid()
    decreases |s|
    ensures |s| > 0 ==> |Drain(c, s, true).pieces| >= 1
    ensures Drain(c, s, true).rest == []
  {
    match SelectCut(c, s, true)
    case None =>
    case Some(cut) =>
      DrainStep(c, s, true, cut);
      ForcedDrainFlushes(c, s[SkipSpace(s, cut.at)..]);
  }

  /** Every chunk of a non-forced drain holds at least `minChars` characters. */
  lemma {:induction false} PatientChunksReachFloor(c: Config, s: seq<char>)
    requires c.Valid()
    decreases |s|
    ensures forall i :: 0 <= i < |Drain(c, s, false).pieces| ==>
              c.minChars <= |Drain(c, s, false).pieces[i].chunk|
  {
    match SelectCut(c, s, false)
    case None =>
    case Some(cut) =>
      DrainStep(c, s, false, cut);
      var r := SkipSpace(s, cut.at);
      PatientChunksReachFloor(c, s[r..]);
      var ps := Drain(c, s, false).pieces;
      var tail := Drain(c, s[r..], false).pieces;
      assert ps == [Piece(s[..cut.at], s[cut.at..r])] + tail;
      PrependKeepsFloor(c.minChars, Piece(s[..cut.at], s[cut.at..r]), tail);
  }

  lemma PrependKeepsFloor(m: int, p: Piece, tail: seq<Piece>)
    requires m <= |p.chunk| && forall i :: 0 <= i < |tail| ==> m <= |tail[i].chunk|
    ensures forall i :: 0 <= i < |[p] + tail| ==> m <= |([p] + tail)[i].chunk|
  {
  }

  /** Every chunk, forced or not, fits in `maxChars`, unless the position `maxChars`
      lies inside a fenced block of that chunk. */
  lemma {:induction false} ChunksRespectCeiling(c: Config, s: seq<char>, force: bool)
    requires c.Valid()
    decreases |s|
    ensures forall i :: 0 <= i < |Drain(c, s, force).pieces| ==>
              WithinCeiling(c, Drain(c, s, force).pieces[i].chunk)
  {
    match SelectCut(c, s, force)
    case None =>
    case Some(cut) =>
      DrainStep(c, s, force, cut);
      CutWithinCeiling(c, s, force, cut);
      ChunksRespectCeiling(c, s[SkipSpace(s, cut.at)..], force);
  }

  lemma CutWithinCeiling(c: Config, s: seq<char>, force: bool, cut: Cut)
    requires c.Valid() && SelectCut(c, s, force) == Some(cut)
    ensures WithinCeiling(c, s[..cut.at])
  {
    if cut.at > c.maxChars {
      if cut.reason.Break? {
        ChunkFenceState(s, cut.at, c.maxChars);
      } else {
        assert s[..cut.at] == s;
      }
    }
  }

  /** No chunk splits a fenced block: every chunk closes each fence it opens, except
      the final remainder of a forced drain, which may end inside a fence that never
      closed. */
  lemma {:induction false} ChunksKeepFencesWhole(c: Config, s: seq<char>, force: bool)
    requires c.Valid()
    decreases |s|
    ensures var ps := Drain(c, s, force).pieces;
            forall i :: 0 <= i < |ps| && (!force || i + 1 < |ps|) ==> FenceBalanced(ps[i].chunk)
  {
    match SelectCut(c, s, force)
    case None =>
    case Some(cut) =>
      DrainStep(c, s, force, cut);
      var r := SkipSpace(s, cut.at);
      if cut.reason.Break? {
        ChunkFenceState(s, cut.at, cut.at);
      } else {
        assert r == |s|;
        assert |Drain(c, s[r..], force).pieces| == 0;
      }
      ChunksKeepFencesWhole(c, s[r..], force);
  }

  /** A non-forced drain emits nothing exactly when no cut is available, and then
      the buffer is left exactly as it was: below `maxChars` it never falls back to
      word breaks. */
  lemma PatientDrainWaits(c: Config, s: seq<char>)
    requires c.Valid()
    ensures |Drain(c, s, false).pieces| == 0 <==> NoCutAvailable(c, s)
    ensures NoCutAvailable(c, s) ==> Drain(c, s, false).rest == s
  {
  }

  /** Progress: a paragraph or sentence end inside the window `[minChars, maxChars]`
      makes a non-forced drain emit at least one chunk. */
  lemma PatientDrainProgresses(c: Config, s: seq<char>, p: int, k: Kind)
    requires c.Valid() && Rank(k) >= Rank(Sentence)
    requires c.minChars <= p <= c.maxChars && IsBreak(s, p, k)
    ensures |Drain(c, s, false).pieces| >= 1
  {
    assert !NoBreakIn(s, k, c.minChars, Window(c, s));
  }

  /** Rank preference without forcing: once the buffer has reached `maxChars`, a
      sentence end in the window `[minChars, maxChars]` and no paragraph break there
      make the first chunk end at the earliest sentence end, never at a word break
      or a hard cut. */
  lemma PatientSplitPrefersSentence(c: Config, s: seq<char>, p: int)
    requires c.Valid() && |s| >= c.maxChars
    requires c.minChars <= p <= c.maxChars && IsBreak(s, p, Sentence)
    requires NoBreakIn(s, Paragraph, c.minChars, c.maxChars)
    ensures var ps := Drain(c, s, false).pieces;
            && |ps| >= 1
            && EndsSentence(ps[0].chunk)
            && |ps[0].chunk| <= p
  {
    var q := PatientSentenceCut(c, s, p);
    FirstPiece(c, s, false, Cut(q, Break(Sentence)));
    assert s[..q][q - 1] == s[q - 1];
  }

  /** The cut behind `PatientSplitPrefersSentence`, read off the selection contract
      alone. */
  lemma PatientSentenceCut(c: Config, s: seq<char>, p: int) returns (q: int)
    requires c.Valid() && |s| >= c.maxChars
    requires c.minChars <= p <= c.maxChars && IsBreak(s, p, Sentence)
    requires NoBreakIn(s, Paragraph, c.minChars, c.maxChars)
    ensures 0 < q <= p && SentenceEndAt(s, q)
    ensures SelectCut(c, s, false) == Some(Cut(q, Break(Sentence)))
  {
    assert !NoBreakIn(s, Sentence, c.minChars, Window(c, s));
    var cut := SelectCut(c, s, false).value;
    PatientCutPrefersRank(c, s);
    assert cut.reason == Break(Sentence);
    q := cut.at;
  }

  /** With no paragraph, sentence or word break in `[minChars, maxChars]`, a buffer
      that has reached `maxChars` is cut at exactly `maxChars` when that position is
      admissible: the non-forced drain does not look for a boundary below
      `minChars`. */
  lemma PatientHardCutAtCeiling(c: Config, s: seq<char>)
    requires c.Valid() && |s| >= c.maxChars && OutsideFence(s, c.maxChars)
    requires NoBreakIn(s, Paragraph, c.minChars, c.maxChars)
    requires NoBreakIn(s, Sentence, c.minChars, c.maxChars)
    requires NoBreakIn(s, Word, c.minChars, c.maxChars)
    ensures var ps := Drain(c, s, false).pieces;
            && |ps| >= 1
            && ps[0].chunk == s[..c.maxChars]
  {
    assert IsBreak(s, c.maxChars, Hard);
    var cut := SelectCut(c, s, false).value;
    assert cut == Cut(c.maxChars, Break(Hard));
    FirstPiece(c, s, false, cut);
  }

  /** The cut a non-forced drain makes when a closing fence marker ends the first
      paragraph in the window. */
  lemma FenceCloseSelected(c: Config, s: seq<char>, e: int)
    requires c.Valid() && ClosesFenceAt(s, e)
    requires c.minChars <= e <= c.maxChars && e <= |s|
    requires NoBreakIn(s, Paragraph, c.minChars, e - 1)
    ensures SelectCut(c, s, false) == Some(Cut(e, Break(Paragraph)))
  {
    CloseIsOutside(s, e);
    assert IsBreak(s, e, Paragraph);
  }

  /** The buffer up to a closing fence position ends with the marker and closes
      every fence it opens. */
  lemma FenceCloseChunk(s: seq<char>, e: int)
    requires ClosesFenceAt(s, e)
    ensures 3 <= e <= |s| && EndsWith(s[..e], "```") && FenceBalanced(s[..e])
  {
    var ms := Markers(s);
    MarkersSound(s);
    var k :| 0 <= k < |ms| && k % 2 == 1 && ms[k] + 3 == e;
    assert FenceAt(s, ms[k]);
    CloseIsOutside(s, e);
    ChunkFenceState(s, e, e);
  }

  /** A non-forced drain stops at the first chunk boundary after a closing fence
      marker when no paragraph break comes earlier in the window: the chunk is the
      buffer up to and including the marker, and the text after the fence (past the
      whitespace that separates it) is what the drain continues on. */
  lemma FenceCloseEndsChunk(c: Config, s: seq<char>, e: int)
    requires c.Valid() && ClosesFenceAt(s, e)
    requires c.minChars <= e <= c.maxChars && e <= |s|
    requires NoBreakIn(s, Paragraph, c.minChars, e - 1)
    ensures var d := Drain(c, s, false);
            var r := SkipSpace(s, e);
            && |d.pieces| >= 1
            && d.pieces[0] == Piece(s[..e], s[e..r])
            && EndsWith(d.pieces[0].chunk, "```")
            && FenceBalanced(d.pieces[0].chunk)
            && d.pieces[1..] == Drain(c, s[r..], false).pieces
            && d.rest == Drain(c, s[r..], false).rest
  {
    FenceCloseSelected(c, s, e);
    DrainStep(c, s, false, Cut(e, Break(Paragraph)));
    FenceCloseChunk(s, e);
  }

  /** Text that has no blank line and no fence marker: a single paragraph of prose. */
  predicate Prose(s: seq<char>) {
    (forall i | 0 <= i < |s| :: !BlankLineAt(s, i)) && (forall i | 0 <= i < |s| :: !FenceAt(s, i))
  }

  predicate EndsSentence(chunk: seq<char>) {
    |chunk| > 0 && IsTerminal(chunk[|chunk| - 1])
  }

  lemma ProseSuffix(s: seq<char>, r: nat)
    requires Prose(s) && r <= |s|
    ensures Prose(s[r..])
  {
    forall i | BlankLineAt(s[r..], i) ensures BlankLineAt(s, i + r) { }
    forall i | FenceAt(s[r..], i) ensures FenceAt(s, i + r) { }
  }

  /** In prose every boundary is a sentence or word boundary: there are no fences to
      close and no blank lines. */
  lemma ProseHasNoParagraph(s: seq<char>, p: int)
    requires Prose(s)
    ensures !Shaped(s, p, Paragraph)
  {
    NoMarkersNoFence(s, p);
  }

  lemma ProseCutEndsSentence(c: Config, s: seq<char>, cut: Cut)
    requires c.Valid() && |s| < c.maxChars && Prose(s)
    requires SelectCut(c, s, false) == Some(cut)
    ensures EndsSentence(s[..cut.at])
  {
    ProseHasNoParagraph(s, cut.at);
    assert SentenceEndAt(s, cut.at);
  }

  /** While the buffer is below `maxChars`, every chunk a non-forced drain cuts from a
      single paragraph of prose ends with `.`, `!` or `?`. */
  lemma {:induction false} ProseChunksEndSentences(c: Config, s: seq<char>)
    requires c.Valid() && |s| < c.maxChars && Prose(s)
    decreases |s|
    ensures forall i :: 0 <= i < |Drain(c, s, false).pieces| ==>
              EndsSentence(Drain(c, s, false).pieces[i].chunk)
  {
    match SelectCut(c, s, false)
    case None =>
    case Some(cut) =>
      DrainStep(c, s, false, cut);
      ProseCutEndsSentence(c, s, cut);
      var r := SkipSpace(s, cut.at);
      ProseSuffix(s, r);
      ProseChunksEndSentences(c, s[r..]);
  }

  /** A forced drain of a buffer that fits in `maxChars` emits it as one chunk. */
  lemma ForcedDrainKeepsShortBufferWhole(c: Config, s: seq<char>)
    requires c.Valid() && 0 < |s| <= c.maxChars
    ensures Drain(c, s, true) == Drained([Piece(s, [])], [])
  {
    var cut := Cut(|s|, Remainder);
    DrainStep(c, s, true, cut);
    assert s[..|s|] == s;
  }

  /** When a forced drain must split (the buffer exceeds `maxChars`) and the window
      up to `maxChars` holds a sentence end but no paragraph break, the first chunk
      ends at the earliest sentence end, not at a word break. */
  lemma ForcedSplitPrefersSentence(c: Config, s: seq<char>, p: int)
    requires c.Valid() && |s| > c.maxChars
    requires 0 < p <= c.maxChars && IsBreak(s, p, Sentence)
    requires NoBreakIn(s, Paragraph, 1, c.maxChars)
    ensures var ps := Drain(c, s, true).pieces;
            && |ps| >= 1
            && EndsSentence(ps[0].chunk)
            && |ps[0].chunk| <= p
  {
    var q := ForcedSentenceCut(c, s, p);
    FirstPiece(c, s, true, Cut(q, Break(Sentence)));
    assert s[..q][q - 1] == s[q - 1];
  }

  lemma ForcedSentenceCut(c: Config, s: seq<char>, p: int) returns (q: int)
    requires c.Valid() && |s| > c.maxChars
    requires 0 < p <= c.maxChars && IsBreak(s, p, Sentence)
    requires NoBreakIn(s, Paragraph, 1, c.maxChars)
    ensures 0 < q <= p && SentenceEndAt(s, q)
    ensures SelectCut(c, s, true) == Some(Cut(q, Break(Sentence)))
  {
    assert !NoBreakIn(s, Sentence, 1, c.maxChars);
    q := FirstBreak(s, Sentence, 1, c.maxChars).value;
  }

  /** After a cut, the drain drops exactly the whitespace run that follows it and
      carries on with the text after that run. */
  lemma DrainAfterCut(c: Config, s: seq<char>, force: bool, cut: Cut, sep: seq<char>, after: seq<char>)
    requires c.Valid() && SelectCut(c, s, force) == Some(cut)
    requires s[cut.at..] == sep + after && AllSpace(sep) && (after == [] || !IsSpace(after[0]))
    ensures Drain(c, s, force) ==
            Drained([Piece(s[..cut.at], sep)] + Drain(c, after, force).pieces, Drain(c, after, force).rest)
  {
    var r := SkipSpace(s, cut.at);
    SeparatorEnds(s, cut.at, sep, after);
    assert Piece(s[..cut.at], s[cut.at..r]) == Piece(s[..cut.at], sep);
    assert s[r..] == after;
    DrainStep(c, s, force, cut);
  }

  lemma SeparatorEnds(s: seq<char>, e: nat, sep: seq<char>, after: seq<char>)
    requires e <= |s| && s[e..] == sep + after && AllSpace(sep) && (after == [] || !IsSpace(after[0]))
    ensures SkipSpace(s, e) == e + |sep| && s[e..e + |sep|] == sep && s[e + |sep|..] == after
  {
    assert s[e..e + |sep|] == sep;
    assert s[e + |sep|..] == after;
    SkipSpaceStopsAt(s, e, e + |sep|);
  }

  /** The whitespace run dropped after a cut is determined by where it ends. */
  lemma SkipSpaceStopsAt(s: seq<char>, p: nat, r: nat)
    requires p <= r <= |s| && AllSpace(s[p..r]) && (r == |s| || !IsSpace(s[r]))
    ensures SkipSpace(s, p) == r
  {
    var q := SkipSpace(s, p);
    assert forall i | p <= i < q :: s[p..q][i - p] == s[i];
    assert forall i | p <= i < r :: s[p..r][i - p] == s[i];
  }

  /** Draining again in the same mode right away emits nothing and leaves the buffer
      as the first drain left it. */
  lemma {:induction false} DrainSettles(c: Config, s: seq<char>, force: bool)
    requires c.Valid()
    decreases |s|
    ensures var rest := Drain(c, s, force).rest;
            Drain(c, rest, force) == Drained([], rest)
  {
    match SelectCut(c, s, force)
    case None =>
    case Some(cut) =>
      DrainStep(c, s, force, cut);
      DrainSettles(c, s[SkipSpace(s, cut.at)..], force);
  }
}

=== FILE: scenarios.dfy ===
/** The behaviours the chunker's own examples pin down, stated for whole families of
    buffers and then for the example texts themselves. */
module Scenarios {
  import opened Wrappers
  import opened Text
  import opened Fences
  import opened Boundaries
  import opened Chunker
  import opened DrainProperties

  /** `s[i..j]` holds no backtick. */
  predicate NoTick(s: seq<char>, i: int, j: int) {
    forall k | i <= k < j :: 0 <= k < |s| ==> s[k] != '`'
  }

  /** The scan passes over text without backticks without finding a marker. */
  lemma {:induction false} SkipNoTick(s: seq<char>, i: nat, j: nat)
    requires i <= j <= |s| && NoTick(s, i, j)
    decreases j - i
    ensures MarkersFrom(s, i) == MarkersFrom(s, j)
  {
    if i < j && i + 3 <= |s| {
      assert !FenceAt(s, i);
      SkipNoTick(s, i + 1, j);
    } else if i < j {
      assert MarkersFrom(s, i) == [];
      SkipNoTick(s, i + 1, j);
    }
  }

  /** A buffer holding one closed code block between text without backticks. */
  predicate FencedLayout(s: seq<char>, intro: seq<char>, code: seq<char>, tail: seq<char>) {
    && s == intro + Marker + code + Marker + tail
    && '`' !in intro && '`' !in code && '`' !in tail
  }

  /** Its markers are exactly the two around the code. */
  lemma FencedLayoutMarkers(s: seq<char>, intro: seq<char>, code: seq<char>, tail: seq<char>)
    requires FencedLayout(s, intro, code, tail)
    ensures Markers(s) == [|intro|, |intro| + 3 + |code|]
  {
    var m0, m1 := |intro|, |intro| + 3 + |code|;
    forall k | 0 <= k < m0 ensures s[k] != '`' {
      assert s[k] == intro[k];
    }
    SkipNoTick(s, 0, m0);
    assert FenceAt(s, m0);
    forall k | m0 + 3 <= k < m1 ensures s[k] != '`' {
      assert s[k] == code[k - m0 - 3];
    }
    SkipNoTick(s, m0 + 3, m1);
    assert FenceAt(s, m1);
    forall k | m1 + 3 <= k < |s| ensures s[k] != '`' {
      assert s[k] == tail[k - m1 - 3];
    }
    SkipNoTick(s, m1 + 3, |s|);
  }

  predicate NoBlankLine(t: seq<char>) {
    forall i | 0 <= i < |t| :: !BlankLineAt(t, i)
  }

  /** Before the end of the closing marker, the only admissible positions are in the
      introduction, and with no blank line there none of them is a paragraph end. */
  lemma NoParagraphBeforeClose(s: seq<char>, intro: seq<char>, code: seq<char>, tail: seq<char>)
    requires FencedLayout(s, intro, code, tail) && NoBlankLine(intro)
    ensures NoBreakIn(s, Paragraph, 1, |intro| + 5 + |code|)
  {
    var m0, m1 := |intro|, |intro| + 3 + |code|;
    FencedLayoutMarkers(s, intro, code, tail);
    var ms := Markers(s);
    assert ms[1..] == [m1];
    forall q | 1 <= q <= m1 + 2
      ensures !IsBreak(s, q, Paragraph)
    {
      if q <= m0 {
        assert q + 1 < m0 ==> s[q] == intro[q] && s[q + 1] == intro[q + 1];
        assert q + 1 < m0 ==> !BlankLineAt(intro, q);
        assert s[m0] == '`';
        assert !BlankLineAt(s, q);
        assert forall k :: 0 <= k < |ms| && k % 2 == 1 ==> k == 1;
      } else if q <= m1 {
        assert CountBelow(ms, q) == 1;
      } else {
        assert CountBelow(ms, q) == 2;
        assert CountBelow(ms, q - 2) == 1;
      }
    }
  }

  /** A closed code block whose end falls in the size window is emitted as a chunk of
      its own: the chunk runs from the start of the buffer to the closing marker, the
      whitespace after the block is dropped, and draining continues on the text after
      it. */
  lemma FenceBlockEmitted(c: Config, s: seq<char>, intro: seq<char>, code: seq<char>,
                          sep: seq<char>, after: seq<char>)
    requires c.Valid() && FencedLayout(s, intro, code, sep + after) && NoBlankLine(intro)
    requires AllSpace(sep) && (after == [] || !IsSpace(after[0]))
    requires c.minChars <= |intro| + 6 + |code| <= c.maxChars
    ensures var d := Drain(c, s, false);
            && |d.pieces| >= 1
            && d.pieces[0] == Piece(intro + Marker + code + Marker, sep)
            && d.pieces[1..] == Drain(c, after, false).pieces
            && d.rest == Drain(c, after, false).rest
  {
    var e := |intro| + 6 + |code|;
    FenceBlockSelected(c, s, intro, code, sep, after);
    LayoutSlices(s, intro + Marker + code + Marker, sep, after);
    DrainAfterCut(c, s, false, Cut(e, Break(Paragraph)), sep, after);
  }

  lemma FenceBlockSelected(c: Config, s: seq<char>, intro: seq<char>, code: seq<char>,
                           sep: seq<char>, after: seq<char>)
    requires c.Valid() && FencedLayout(s, intro, code, sep + after) && NoBlankLine(intro)
    requires c.minChars <= |intro| + 6 + |code| <= c.maxChars
    ensures SelectCut(c, s, false) == Some(Cut(|intro| + 6 + |code|, Break(Paragraph)))
  {
    var e := |intro| + 6 + |code|;
    FenceBlockCloses(c, s, intro, code, sep, after);
    FenceBlockFirstParagraph(c, s, intro, code, sep, after);
    FenceCloseSelected(c, s, e);
  }

  lemma FenceBlockCloses(c: Config, s: seq<char>, intro: seq<char>, code: seq<char>,
                         sep: seq<char>, after: seq<char>)
    requires c.Valid() && FencedLayout(s, intro, code, sep + after) && NoBlankLine(intro)
    ensures var e := |intro| + 6 + |code|; ClosesFenceAt(s, e)
  {
    var e := |intro| + 6 + |code|;
    FencedLayoutMarkers(s, intro, code, sep + after);
    assert Markers(s)[1] + 3 == e;
  }

  lemma FenceBlockFirstParagraph(c: Config, s: seq<char>, intro: seq<char>, code: seq<char>,
                                 sep: seq<char>, after: seq<char>)
    requires c.Valid() && FencedLayout(s, intro, code, sep + after) && NoBlankLine(intro)
    requires c.minChars <= |intro| + 6 + |code| <= c.maxChars
    ensures var e := |intro| + 6 + |code|; NoBreakIn(s, Paragraph, c.minChars, e - 1)
  {
    NoParagraphBeforeClose(s, intro, code, sep + after);
  }

  lemma LayoutSlices(s: seq<char>, head: seq<char>, sep: seq<char>, after: seq<char>)
    requires s == head + (sep + after)
    ensures s[..|head|] == head && s[|head|..] == sep + after
  {
  }

  /** Below `maxChars`, a paragraph of prose with no sentence end from `minChars` on is
      held back whole: nothing is emitted and the buffer is unchanged, even though it
      has word breaks. */
  lemma ShortProseWaits(c: Config, s: seq<char>)
    requires c.Valid() && |s| < c.maxChars && Prose(s)
    requires forall p | c.minChars <= p <= |s| :: !SentenceEndAt(s, p)
    ensures Drain(c, s, false) == Drained([], s)
  {
    forall q ensures !IsBreak(s, q, Paragraph) {
      ProseHasNoParagraph(s, q);
    }
    assert NoCutAvailable(c, s);
  }

  /** Text that lacks the first character of `t` does not contain `t`. */
  lemma LacksFirst(s: seq<char>, t: seq<char>)
    requires |t| > 0 && t[0] !in s
    ensures !Contains(s, t)
  {
    forall i | 0 <= i && i + |t| <= |s| ensures s[i..i + |t|][0] == s[i] { }
  }

  /** The lines of the example text: a line of prose, a code block, a blank line
      and two more lines of prose. */
  const FenceLines: seq<seq<char>> :=
    ["Intro", "```js", "console.log('x')", "```", "", "After first line", "After second line"]
  const FenceIntro: seq<char> := "Intro" + "\n"
  const FenceCode: seq<char> := "js" + "\n" + "console.log('x')" + "\n"
  const FenceSep: seq<char> := "\n\n"
  const FenceAfter: seq<char> := "After first line" + "\n" + "After second line"

  /** How lines joined around a code block split into the parts of a fenced layout. */
  lemma JoinFencedLines(a: seq<char>, b: seq<char>, c: seq<char>, d: seq<char>, e: seq<char>)
    ensures JoinLines([a, Marker + b, c, Marker, "", d, e])
         == (a + "\n") + Marker + (b + "\n" + c + "\n") + Marker + ("\n\n" + (d + "\n" + e))
  {
    var ls := [a, Marker + b, c, Marker, "", d, e];
    assert ls[6..] == [e];
    assert ls[5..] == [d] + ls[6..];
    assert ls[4..] == [""] + ls[5..];
    assert ls[3..] == [Marker] + ls[4..];
    assert ls[2..] == [c] + ls[3..];
    assert ls[1..] == [Marker + b] + ls[2..];
    var t5 := d + "\n" + e;
    assert JoinLines(ls[5..]) == t5;
    assert JoinLines(ls[4..]) == "" + "\n" + t5;
    assert JoinLines(ls[3..]) == Marker + "\n" + ("" + "\n" + t5);
    assert JoinLines(ls[2..]) == c + "\n" + (Marker + "\n" + ("" + "\n" + t5));
    assert JoinLines(ls[1..]) == Marker + b + "\n" + (c + "\n" + (Marker + "\n" + ("" + "\n" + t5)));
    assert "" + "\n" + t5 == "\n" + t5;
    assert "\n" + ("\n" + t5) == "\n\n" + t5;
  }

  lemma FenceTextJoin()
    ensures JoinLines(FenceLines) == FenceIntro + Marker + FenceCode + Marker + (FenceSep + FenceAfter)
  {
    assert "```js" == Marker + "js";
    assert FenceLines == ["Intro", Marker + "js", "console.log('x')", Marker, "", "After first line", "After second line"];
    JoinFencedLines("Intro", "js", "console.log('x')", "After first line", "After second line");
  }

  lemma FenceTextParts()
    ensures '`' !in FenceIntro && '`' !in FenceCode && '`' !in FenceSep + FenceAfter
    ensures NoBlankLine(FenceIntro) && AllSpace(FenceSep) && !IsSpace(FenceAfter[0])
    ensures |FenceIntro| + 6 + |FenceCode| == 32
  {
    assert '`' !in FenceSep + FenceAfter;
  }

  lemma FenceTextLayout()
    ensures FencedLayout(JoinLines(FenceLines), FenceIntro, FenceCode, FenceSep + FenceAfter)
    ensures NoBlankLine(FenceIntro) && AllSpace(FenceSep) && !IsSpace(FenceAfter[0])
    ensures |FenceIntro| + 6 + |FenceCode| == 32
  {
    FenceTextJoin();
    FenceTextParts();
  }

  /** Two lines joined by one newline hold no blank line. */
  lemma OneNewlineNoBlank(a: seq<char>, b: seq<char>)
    requires '\n' !in a && '\n' !in b
    ensures NoBlankLine(a + "\n" + b)
  {
    var s := a + "\n" + b;
    forall i | 0 <= i < |s| ensures !BlankLineAt(s, i) {
      if i < |a| {
        assert s[i] == a[i];
      } else if i > |a| {
        assert s[i] == b[i - |a| - 1];
      } else if i + 1 < |s| {
        assert s[i + 1] == b[0];
      }
    }
  }

  /** Text without backticks, blank lines or sentence-ending characters is prose with
      no sentence end. */
  lemma PlainProse(s: seq<char>)
    requires NoBlankLine(s) && '`' !in s && '.' !in s && '!' !in s && '?' !in s
    ensures Prose(s) && forall p :: !SentenceEndAt(s, p)
  {
    assert forall i | 0 <= i < |s| :: s[i] in s;
  }

  /** A line made of letters and spaces only. */
  lemma PlainLine(s: seq<char>)
    requires forall i | 0 <= i < |s| :: s[i] == ' ' || 'a' <= s[i] <= 'z' || 'A' <= s[i] <= 'Z'
    ensures '\n' !in s && '`' !in s && '.' !in s && '!' !in s && '?' !in s
  {
  }

  lemma FenceAfterIsProse()
    ensures |FenceAfter| == 34 && Prose(FenceAfter)
    ensures forall p :: !SentenceEndAt(FenceAfter, p)
  {
    var a, b := "After first line", "After second line";
    PlainLine(a);
    PlainLine(b);
    OneNewlineNoBlank(a, b);
    PlainProse(FenceAfter);
  }

  lemma FenceTextTail(c: Config)
    requires c == Config(1, 40)
    ensures Drain(c, FenceAfter, false) == Drained([], FenceAfter)
  {
    FenceAfterIsProse();
    ShortProseWaits(c, FenceAfter);
  }

  const FenceChunk: seq<char> := FenceIntro + Marker + FenceCode + Marker

  lemma FenceTextDrain(c: Config)
    requires c == Config(1, 40)
    ensures Drain(c, JoinLines(FenceLines), false) == Drained([Piece(FenceChunk, FenceSep)], FenceAfter)
  {
    FenceTextLayout();
    FenceBlockEmitted(c, JoinLines(FenceLines), FenceIntro, FenceCode, FenceSep, FenceAfter);
    FenceTextTail(c);
    var d := Drain(c, JoinLines(FenceLines), false);
    assert d.pieces == [d.pieces[0]] + d.pieces[1..];
  }

  lemma FenceChunkFacts()
    ensures Contains(FenceChunk, "console.log")
    ensures EndsWith(FenceChunk, "```")
    ensures !Contains(FenceChunk, "After")
    ensures StartsWith(FenceAfter, "After")
  {
    assert OccursAt(FenceChunk, "console.log", 12);
    LacksFirst(FenceChunk, "After");
  }

  /** The example of a code block followed by a blank line: with bounds 1 and 40 a
      non-forced drain emits one chunk that holds the code and ends with the closing
      marker, and keeps the text after the blank line buffered. */
  lemma FenceCloseExample()
    ensures MakeConfig(1, 40) == Success(Config(1, 40))
    ensures var (ps, ch) := NewChunker(Config(1, 40)).Append(JoinLines(FenceLines)).DrainAll(false);
            && |ps| == 1
            && Contains(ps[0].chunk, "console.log")
            && EndsWith(ps[0].chunk, "```")
            && !Contains(ps[0].chunk, "After")
            && StartsWith(ch.BufferedText(), "After")
  {
    var r := NewChunker(Config(1, 40)).Append(JoinLines(FenceLines)).DrainAll(false);
    FenceTextDrainAll();
    assert r.0 == [Piece(FenceChunk, FenceSep)] && r.1.BufferedText() == FenceAfter;
    FenceChunkFacts();
  }

  lemma FenceTextDrainAll()
    ensures NewChunker(Config(1, 40)).Append(JoinLines(FenceLines)).DrainAll(false)
         == ([Piece(FenceChunk, FenceSep)], EmbeddedBlockChunker(Config(1, 40), FenceAfter))
  {
    var c := Config(1, 40);
    var text := JoinLines(FenceLines);
    assert NewChunker(c).Append(text) == EmbeddedBlockChunker(c, text);
    FenceTextDrain(c);
  }

  /** The forced example: with bounds 100 and 200, a forced drain of a 150-character
      text emits at least one chunk, so the first chunk ending a sentence whenever
      there are several holds trivially; in fact the text fits in `maxChars` and is
      emitted whole, leaving the buffer empty. */
  lemma ForcedShortTextExample(text: seq<char>)
    requires |text| == 150
    ensures var (ps, ch) := NewChunker(Config(100, 200)).Append(text).DrainAll(true);
            && |ps| >= 1
            && (|ps| > 1 ==> EndsSentence(ps[0].chunk))
            && Chunks(ps) == [text]
            && ch.BufferedText() == []
  {
    var c := Config(100, 200);
    assert NewChunker(c).Append(text).buffer == text;
    ForcedDrainKeepsShortBufferWhole(c, text);
  }

  /** The long-paragraph example: with bounds 300 and 1200, a 934-character paragraph
      of prose with a sentence end at 360 yields at least one chunk when drained
      without force, and every chunk holds at least 300 characters and ends a
      sentence. */
  lemma LongParagraphExample(text: seq<char>)
    requires |text| == 934 && Prose(text) && SentenceEndAt(text, 360)
    ensures var (ps, ch) := NewChunker(Config(300, 1200)).Append(text).DrainAll(false);
            && |ps| >= 1
            && forall i :: 0 <= i < |ps| ==> EndsSentence(ps[i].chunk) && 300 <= |ps[i].chunk|
  {
    var c := Config(300, 1200);
    assert NewChunker(c).Append(text).buffer == text;
    NoMarkersNoFence(text, 360);
    PatientDrainProgresses(c, text, 360, Sentence);
    ProseChunksEndSentences(c, text);
    PatientChunksReachFloor(c, text);
  }

  /** The no-word-fallback example: with bounds 50 and 200, a 144-character paragraph
      of prose whose only sentence end is at 4 is not drained at all, though it has
      word breaks past 50: nothing is emitted and the buffer is the text itself. */
  lemma NoWordFallbackExample(text: seq<char>)
    requires |text| == 144 && Prose(text)
    requires forall p | 0 < p <= |text| :: SentenceEndAt(text, p) ==> p == 4
    ensures var (ps, ch) := NewChunker(Config(50, 200)).Append(text).DrainAll(false);
            |ps| == 0 && ch.BufferedText() == text
  {
    var c := Config(50, 200);
    assert NewChunker(c).Append(text).buffer == text;
    ShortProseWaits(c, text);
  }
}

=== FILE: text.dfy ===
/** Character classes and small sequence facts the chunker's boundary rules are built from. */
module Text {

  /** Whitespace as the boundary rules see it: space, newline, tab and carriage return. */
  predicate IsSpace(ch: char) {
    ch == ' ' || ch == '\n' || ch == '\t' || ch == '\r'
  }

  /** The characters that end a sentence. */
  predicate IsTerminal(ch: char) {
    ch == '.' || ch == '!' || ch == '?'
  }

  predicate AllSpace(s: seq<char>) {
    forall i :: 0 <= i < |s| ==> IsSpace(s[i])
  }

  /** The lines joined with a newline between each two, as `Array.prototype.join("\n")`
      builds a text. */
  function JoinLines(ls: seq<seq<char>>): seq<char> {
    if |ls| == 0 then [] else if |ls| == 1 then ls[0] else ls[0] + "\n" + JoinLines(ls[1..])
  }

  /** True when `t` occurs in `s` as a contiguous slice. */
  predicate Contains(s: seq<char>, t: seq<char>) {
    exists i | 0 <= i <= |s| :: OccursAt(s, t, i)
  }

  predicate OccursAt(s: seq<char>, t: seq<char>, i: int) {
    0 <= i && i + |t| <= |s| && s[i..i + |t|] == t
  }

  predicate StartsWith(s: seq<char>, t: seq<char>) {
    |t| <= |s| && s[..|t|] == t
  }

  predicate EndsWith(s: seq<char>, t: seq<char>) {
    |t| <= |s| && s[|s| - |t|..] == t
  }

  /** The index of the first non-whitespace character at or after `p`
      (or the end of `s`): the separator run dropped after a cut ends here. */
  function SkipSpace(s: seq<char>, p: nat): (r: nat)
    requires p <= |s|
    decreases |s| - p
    ensures p <= r <= |s|
    ensures AllSpace(s[p..r])
    ensures r == |s| || !IsSpace(s[r])
  {
    if p == |s| || !IsSpace(s[p]) then p
    else
      var r := SkipSpace(s, p + 1);
      assert s[p..r] == [s[p]] + s[p + 1..r];
      r
  }

  /** Concatenation regroups freely. */
  lemma Assoc<T>(a: seq<T>, b: seq<T>, c: seq<T>)
    ensures (a + b) + c == a + (b + c)
  {
  }

  lemma Regroup<T>(a: seq<T>, b: seq<T>, l: seq<T>, n: seq<T>, t: seq<T>)
    requires b + l == n + t
    ensures (a + b) + l == (a + n) + t
  {
    assert (a + b) + l == a + (b + l);
    assert (a + n) + t == a + (n + t);
  }
}

=== FILE: wrappers.dfy ===
/** Failure-carrying results used by the chunker model. */
module Wrappers {

  /** A value that may be absent, such as "no admissible cut point". */
  datatype Option<+T> = None | Some(value: T)

  /** The outcome of an operation that can be refused, such as building a configuration. */
  datatype Result<+R, +E> = Success(value: R) | Failure(error: E)
}
